=== FILE: README.md ===
# Pallet call and error declaration validators

This project models the two declaration validators of the pallet attribute macro in
Substrate's `frame-support` procedural crate. It also proves properties of that model.

- `CallDef::try_from` validates the dispatchable block
  `impl<..> Call for Module<..> { #[pallet::weight = w] fn f(origin, #[pallet::compact] a: T, ..) -> DispatchResultWithPostInfo { .. } }`.
  It takes the trait reference off the block. It strips the `#[pallet::weight]` marker
  from every method and the `#[pallet::compact]` marker from every parameter, in place.
  For each method it records a call variant: the method's name, its parameters as
  `(is_compact, name, type)`, its weight expression and its doc literals. Its grammars
  for the markers are `FunctionAttr::parse` and `ArgAttrIsCompact::parse`.
- `ErrorDef::try_from` validates `pub enum Error<..> { Variant, .. }`. It records the
  item's index, each unit variant's name and doc literals, and the instance usage of
  the enum's generics.

Every check fails with its own diagnostic, and the first check that fails decides.

Modules:

- `Results` holds the `Result`/`Option` wrappers and the diagnostics.
- `Collect` models `map(..).collect::<Result<Vec<_>, _>>()`, which fails fast.
- `Syntax` holds the slice of Rust syntax the validators look at. It also holds the
  instance-usage checks and the origin-parameter check shared with the rest of the
  macro, as a record of functions.
- `Attrs` models the two attribute helpers the validators call:
  - `take_item_attrs` removes every attribute whose path starts with `pallet` and
    parses each one with the caller's grammar, front to back;
  - `get_doc_literals` reads `#[doc = "..."]` literals.
- `CallParse` models `call.rs`. Its methods `CheckArg`, `CheckArgs`, `CheckMethod` and
  `TryFrom` do the work step by step, as the source does: loops update the parameter
  list and the member list in place and push into vectors. Each method is proved equal
  to a specification function: `ParseArg`, `ParseArgs`, `MethodVariant` and `CallDefOf`.
  The lemmas about those functions state what the validator guarantees.
- `ErrorParse` models `error.rs`. That validator only reads its input, so it is a
  function with lemmas.

## Model

| member | source | states |
|---|---|---|
| CallParse.ParseFunctionAttr | frame/support/procedural/src/pallet/parse/call.rs:44-59 | accepts exactly an outer, non-global `#[pallet::weight = e]` attribute and returns `e` as the weight |
| CallParse.ParseArgAttrIsCompact | frame/support/procedural/src/pallet/parse/call.rs:65-76 | accepts exactly an outer, non-global `#[pallet::compact]` with nothing after `compact` |
| Syntax.ParseKeyword | frame/support/procedural/src/pallet/parse/call.rs:96 | a keyword parse succeeds exactly on the single token `kw`; a missing or different first token reports that `kw` was expected |
| CallParse.ParseReturnType | frame/support/procedural/src/pallet/parse/call.rs:107-113 | a method is accepted only with the written return type `DispatchResultWithPostInfo`; a missing return type has its own diagnostic |
| CallParse.ParseArg | frame/support/procedural/src/pallet/parse/call.rs:128-149 | a parameter is accepted exactly when its markers parse, there is at most one of them and its pattern is an identifier; the errors come in that order; on success the parameter loses its markers and is described by (has a marker, name, type) |
| CallParse.ArgMarkers | frame/support/procedural/src/pallet/parse/call.rs:135-149 | on an accepted parameter, `is_compact` holds exactly when it carried one marker, every marker it carried is a well-formed `#[pallet::compact]`, the stripped parameter keeps no marker and loses no doc comment |
| CallParse.ParseArgs | frame/support/procedural/src/pallet/parse/call.rs:127-150 | on success the origin parameter is kept, the list keeps its length, and there is one description per later parameter |
| CallParse.ParseArgsMeaning | frame/support/procedural/src/pallet/parse/call.rs:127-150 | the parameter list is accepted exactly when every parameter after the origin is; each stripped parameter and its description then come from that parameter's own check |
| CallParse.ParseArgsAccepts | frame/support/procedural/src/pallet/parse/call.rs:127-150 | if every later parameter is accepted, the parameter list and the descriptions are fixed by those parameters' results |
| CallParse.ParseArgsRejects | frame/support/procedural/src/pallet/parse/call.rs:127-150 | the first parameter that is not accepted decides the diagnostic |
| CallParse.ParseWeight | frame/support/procedural/src/pallet/parse/call.rs:115-125 | a failing weight marker is reported first; then no marker is reported as a missing weight and two or more as too many; on success there was exactly one marker, it is removed, and its expression is the weight |
| CallParse.CheckSignature | frame/support/procedural/src/pallet/parse/call.rs:101-113 | a method without parameters is rejected before anything else; the origin check comes next, then the return type |
| CallParse.MethodVariant | frame/support/procedural/src/pallet/parse/call.rs:100-159 | a method is checked in the order signature, weight, parameters, and the first failure is reported; on success the variant carries the method's name, its parameters' descriptions, its weight and the docs of its stripped attributes, and the stripped method keeps its name, return type and body |
| CallParse.MethodMarkers | frame/support/procedural/src/pallet/parse/call.rs:115-159 | an accepted method had exactly one weight marker, whose expression is the weight; the stripped method keeps no marker; the variant's docs are all the docs written on the method; every later parameter is an identifier pattern whose name and type the variant records |
| CallParse.MemberVariant | frame/support/procedural/src/pallet/parse/call.rs:99-163 | a member that is not a method is rejected; a method is replaced by its stripped form and yields its variant |
| CallParse.ParseMembers | frame/support/procedural/src/pallet/parse/call.rs:98-164 | on success there is one stripped member and one variant per member |
| CallParse.ParseMembersMeaning | frame/support/procedural/src/pallet/parse/call.rs:98-164 | the block is accepted exactly when every member is a method accepted on its own; each variant then carries its method's name and comes from that method's check |
| CallParse.ParseMembersAccepts | frame/support/procedural/src/pallet/parse/call.rs:98-164 | if every member is accepted, the members and variants are fixed by the members' own results |
| CallParse.ParseMembersRejects | frame/support/procedural/src/pallet/parse/call.rs:98-164 | the first member that is not accepted decides the diagnostic |
| CallParse.CallDefOf | frame/support/procedural/src/pallet/parse/call.rs:79-171 | the first failing check decides, in the order: impl item, instance usage of the generics, instance usage of the self type, a trait reference, the trait named `Call`, then the members; on success the instances are those two usages in that order, the returned block is the input block without its trait reference and with its members stripped, and the variants are the members' variants |
| CallParse.CallVariantsFollowMethods | frame/support/procedural/src/pallet/parse/call.rs:98-171 | an accepted block has one variant per member, in order and under the member's name; every member is a method, and no member of the returned block keeps a marker |
| CallParse.CheckArg | frame/support/procedural/src/pallet/parse/call.rs:129-149 | the body of the parameter loop computes exactly `ParseArg` |
| CallParse.CheckArgs | frame/support/procedural/src/pallet/parse/call.rs:127-150 | the parameter loop, which replaces each parameter in place and pushes its description, returns exactly `ParseArgs`, including the first error |
| CallParse.CheckMethod | frame/support/procedural/src/pallet/parse/call.rs:100-159 | the straight-line checks on one method and its parameter loop return exactly `MethodVariant` |
| CallParse.TryFrom | frame/support/procedural/src/pallet/parse/call.rs:79-171 | the validator, which takes the trait off, replaces each method in place and pushes its variant, returns exactly `CallDefOf` |
| Attrs.TakeItemAttrs | frame/support/procedural/src/pallet/parse/call.rs:115 | on success the attributes left in place are the non-markers in order, with one parse per marker |
| Attrs.TakeItemAttrsAccepts | frame/support/procedural/src/pallet/parse/call.rs:115 | extracting markers succeeds exactly when every marker parses under the caller's grammar |
| Attrs.TakeItemAttrsParses | frame/support/procedural/src/pallet/parse/call.rs:135 | a successful extraction returns each marker's parse, in order |
| Attrs.TakeItemAttrsRejects | frame/support/procedural/src/pallet/parse/call.rs:135 | a failed extraction reports the first marker that does not parse |
| Attrs.TakeItemAttrsNoMarkers | frame/support/procedural/src/pallet/parse/call.rs:135 | a list without markers is left as it is and yields no parse |
| Attrs.TakeItemAttrsIdempotent | frame/support/procedural/src/pallet/parse/call.rs:115 | extracting again from a stripped list finds nothing and changes nothing |
| Attrs.MarkersAreMarkers | frame/support/procedural/src/pallet/parse/call.rs:115 | everything extracted is a `pallet` marker |
| Attrs.UnmarkedAreNotMarkers | frame/support/procedural/src/pallet/parse/call.rs:115 | nothing left in place is a `pallet` marker |
| Attrs.SplitWithoutMarkers | frame/support/procedural/src/pallet/parse/call.rs:135 | a list without markers splits into no markers and the whole list |
| Attrs.StrippedHasNoMarkers | frame/support/procedural/src/pallet/parse/call.rs:135 | a stripped list has no marker left and stripping it again changes nothing |
| Attrs.SplitOne | frame/support/procedural/src/pallet/parse/call.rs:115 | a single attribute is extracted when it is a marker and stays in place otherwise |
| Attrs.SplitAppend | frame/support/procedural/src/pallet/parse/call.rs:115 | splitting two lists written one after the other splits each in turn, so markers and remaining attributes keep their written order |
| Attrs.SplitLosesNothing | frame/support/procedural/src/pallet/parse/call.rs:115 | the extracted markers and the attributes left in place together are exactly the original attributes, as a multiset |
| Attrs.DocLiterals | frame/support/procedural/src/pallet/parse/call.rs:152 | there are no more doc literals than attributes, and none when no attribute is a doc attribute |
| Attrs.DocLiteralsOne | frame/support/procedural/src/pallet/parse/call.rs:152 | a `#[doc = lit]` attribute contributes exactly `lit` and any other attribute contributes nothing; with `DocLiteralsAppend` this fixes the doc literals of every list |
| Attrs.DocLiteralsAt | frame/support/procedural/src/pallet/parse/call.rs:152 | the literal of every doc attribute is in the result, right after the literals of the attributes written before it |
| Attrs.DocLiteralsAppend | frame/support/procedural/src/pallet/parse/call.rs:152 | the doc literals of two attribute lists written one after the other are the first list's literals followed by the second's, so the literals keep the order in which they were written |
| Attrs.DocsSurviveStripping | frame/support/procedural/src/pallet/parse/call.rs:115-152 | the docs read from a stripped list are exactly the docs of the original list |
| Collect.TryMap | frame/support/procedural/src/pallet/parse/error.rs:45-60 | a successful collection has one image per element |
| Collect.TryMapAccepts | frame/support/procedural/src/pallet/parse/error.rs:45-60 | collection succeeds exactly when every element is accepted, and it yields their images in order |
| Collect.TryMapRejects | frame/support/procedural/src/pallet/parse/error.rs:45-60 | a failed collection reports the error of the first element that is not accepted |
| Collect.TryMapStopsAt | frame/support/procedural/src/pallet/parse/error.rs:45-60 | if every element before the k-th is accepted and the k-th is not, the collection fails with the k-th element's error |
| Collect.TryMapAllOk | frame/support/procedural/src/pallet/parse/error.rs:45-60 | if every element is accepted with a given image, the collection is exactly those images |
| ErrorParse.ParseVariant | frame/support/procedural/src/pallet/parse/error.rs:46-58 | a variant is accepted exactly when it is a unit variant without discriminant; fields are reported before a discriminant; an accepted variant yields its name and doc literals |
| ErrorParse.TryFrom | frame/support/procedural/src/pallet/parse/error.rs:24-68 | the first failing check decides, in the order: enum item, `pub` visibility, instance usage of the generics, no where clause, the name `Error`; on success the index is recorded, the instances are that one usage, the keyword is `Error` and there is one entry per variant |
| ErrorParse.VariantsDecide | frame/support/procedural/src/pallet/parse/error.rs:45-64 | once the enum's header is accepted, the declaration is accepted exactly when every variant is a unit variant without discriminant, and then each entry is the variant's name and doc literals, in declaration order |
| ErrorParse.FirstBadVariantDecides | frame/support/procedural/src/pallet/parse/error.rs:45-60 | once the header is accepted, the first bad variant decides the diagnostic |

## Left out

- Source spans and message texts are not modelled. A diagnostic is its kind. A diagnostic raised by an outside check is forwarded unchanged, as an opaque value.
- Token-level parsing is not modelled. Attributes, patterns, types and expressions are given already split into the parts the validators test. The marker grammars are modelled on that split: the path segments, whether a `=` expression or other tokens follow, and the bracket style.
- The weight expression is not checked to be a well-formed expression. `NameValue` always carries one, so the model has no malformed-expression error after `=`.
- `check_impl_generics`, `check_module_usage`, `check_dispatchable_first_arg` and `check_type_def_generics` are not part of this model. They are parameters (`Syntax.Checks`): `check_impl_generics`, `check_module_usage` and `check_type_def_generics` each return an instance usage or fail; `check_dispatchable_first_arg` either accepts the origin parameter or fails.
- `take_item_attrs` and `get_doc_literals` are not part of this model. `Attrs` models their documented behaviour. A marker is an attribute whose first path segment is `pallet`.
- The receiver-after-first-parameter case (`unreachable!` in the parameter loop) is ruled out by the type `Syntax.FnInputs`, as Rust's grammar rules it out.
- `ref`/`mut` identifier patterns and `name @ subpattern` bindings are represented by `IdentPat` alone. The source accepts all of them as identifiers and records only the name.
- A negative impl `impl !Call for ..` is accepted, as in the source, which reads only the path of the trait reference. The `negative` flag is carried but not inspected.
- Method bodies, impl generic parameters and where clauses are carried as opaque token lists. A method's own generics, visibility and qualifiers (`const`, `async`, `unsafe`, `extern`) are not represented, so the returned block keeps only the method parts that are modelled.
- The item handed to `ErrorDef::try_from` is passed by mutable reference but never changed. The function model makes that hold by construction.

=== FILE: attrs.dfy ===
/** The attribute helpers both validators use: `take_item_attrs` (extract and strip
    `#[pallet::...]` markers) and `get_doc_literals` (read doc comments). Their code is
    not part of this model; they are modelled on their documented behaviour: a marker
    is any attribute whose first path segment is `pallet`, markers are removed from the
    list in order and each is parsed under the caller's grammar, the first one that
    does not parse fails the whole extraction, and the other attributes stay in place. */
module Attrs {
  import opened Results
  import opened Syntax

  predicate IsMarker(a: Attribute) {
    |a.path| > 0 && a.path[0] == "pallet"
  }

  /** The markers of `attrs`, in order. */
  function Markers(attrs: seq<Attribute>): (ms: seq<Attribute>)
    ensures |ms| <= |attrs|
  {
    if attrs == [] then []
    else (if IsMarker(attrs[0]) then [attrs[0]] else []) + Markers(attrs[1..])
  }

  /** What is left of `attrs` once its markers are removed, in order. */
  function Unmarked(attrs: seq<Attribute>): (rest: seq<Attribute>)
    ensures |rest| <= |attrs|
  {
    if attrs == [] then []
    else (if IsMarker(attrs[0]) then [] else [attrs[0]]) + Unmarked(attrs[1..])
  }

  /** A single attribute goes to the markers when it is one and stays in place otherwise. */
  lemma SplitOne(a: Attribute)
    ensures Markers([a]) == (if IsMarker(a) then [a] else [])
    ensures Unmarked([a]) == (if IsMarker(a) then [] else [a])
  {
    assert [a][1..] == [];
  }

  /** Splitting two lists written one after the other splits each in turn: the markers,
      and the attributes left in place, keep the order they were written in. */
  lemma {:induction false} SplitAppend(a: seq<Attribute>, b: seq<Attribute>)
    ensures Markers(a + b) == Markers(a) + Markers(b)
    ensures Unmarked(a + b) == Unmarked(a) + Unmarked(b)
    decreases |a|
  {
    if a != [] {
      assert (a + b)[1..] == a[1..] + b;
      SplitAppend(a[1..], b);
    } else {
      assert a + b == b;
    }
  }

  /** Everything the split puts first is a marker. */
  lemma {:induction false} MarkersAreMarkers(attrs: seq<Attribute>)
    ensures forall i | 0 <= i < |Markers(attrs)| :: IsMarker(Markers(attrs)[i])
  {
    if attrs != [] {
      var tail := attrs[1..];
      MarkersAreMarkers(tail);
      if IsMarker(attrs[0]) {
        forall i | 1 <= i < |Markers(attrs)| ensures Markers(attrs)[i] == Markers(tail)[i - 1] {
        }
      }
    }
  }

  /** Nothing the split leaves in place is a marker. */
  lemma {:induction false} UnmarkedAreNotMarkers(attrs: seq<Attribute>)
    ensures forall i | 0 <= i < |Unmarked(attrs)| :: !IsMarker(Unmarked(attrs)[i])
  {
    if attrs != [] {
      var tail := attrs[1..];
      UnmarkedAreNotMarkers(tail);
      if !IsMarker(attrs[0]) {
        forall i | 1 <= i < |Unmarked(attrs)| ensures Unmarked(attrs)[i] == Unmarked(tail)[i - 1] {
        }
      }
    }
  }

  /** A list without markers is left whole. */
  lemma {:induction false} SplitWithoutMarkers(attrs: seq<Attribute>)
    requires forall i | 0 <= i < |attrs| :: !IsMarker(attrs[i])
    ensures Markers(attrs) == [] && Unmarked(attrs) == attrs
  {
    if attrs != [] {
      var tail := attrs[1..];
      assert !IsMarker(attrs[0]);
      assert forall i | 0 <= i < |tail| :: tail[i] == attrs[i + 1];
      SplitWithoutMarkers(tail);
      assert [attrs[0]] + tail == attrs;
    }
  }

  /** Stripping leaves nothing to strip. */
  lemma StrippedHasNoMarkers(attrs: seq<Attribute>)
    ensures Markers(Unmarked(attrs)) == [] && Unmarked(Unmarked(attrs)) == Unmarked(attrs)
  {
    UnmarkedAreNotMarkers(attrs);
    SplitWithoutMarkers(Unmarked(attrs));
  }

  /** Splitting an attribute list loses and invents nothing. */
  lemma {:induction false} SplitLosesNothing(attrs: seq<Attribute>)
    ensures multiset(Markers(attrs)) + multiset(Unmarked(attrs)) == multiset(attrs)
  {
    if attrs != [] {
      var tail := attrs[1..];
      SplitLosesNothing(tail);
      assert attrs == [attrs[0]] + tail;
      if IsMarker(attrs[0]) {
        assert Markers(attrs) == [attrs[0]] + Markers(tail);
        assert Unmarked(attrs) == Unmarked(tail);
      } else {
        assert Markers(attrs) == Markers(tail);
        assert Unmarked(attrs) == [attrs[0]] + Unmarked(tail);
      }
    }
  }

  /** `take_item_attrs`: returns the attributes left in place and the parsed markers.
      Markers are parsed front to back, so the first one that does not parse decides
      the error (`TakeItemAttrsAccepts`, `TakeItemAttrsRejects`). */
  function TakeItemAttrs<G>(attrs: seq<Attribute>, parse: Attribute -> Result<G>)
    : (r: Result<(seq<Attribute>, seq<G>)>)
    ensures r.Ok? ==> r.value.0 == Unmarked(attrs) && |r.value.1| == |Markers(attrs)|
  {
    if attrs == [] then Ok(([], []))
    else if IsMarker(attrs[0]) then
      var head :- parse(attrs[0]);
      var rest :- TakeItemAttrs(attrs[1..], parse);
      Ok((rest.0, [head] + rest.1))
    else
      var rest :- TakeItemAttrs(attrs[1..], parse);
      Ok(([attrs[0]] + rest.0, rest.1))
  }

  /** The extraction succeeds exactly when every marker parses. */
  lemma {:induction false} TakeItemAttrsAccepts<G>(attrs: seq<Attribute>, parse: Attribute -> Result<G>)
    ensures TakeItemAttrs(attrs, parse).Ok? ==>
              forall i | 0 <= i < |Markers(attrs)| :: parse(Markers(attrs)[i]).Ok?
    ensures (forall i | 0 <= i < |Markers(attrs)| :: parse(Markers(attrs)[i]).Ok?) ==>
              TakeItemAttrs(attrs, parse).Ok?
  {
    if attrs != [] {
      var tail := attrs[1..];
      TakeItemAttrsAccepts(tail, parse);
      var ms, rest := Markers(attrs), Markers(tail);
      if IsMarker(attrs[0]) {
        assert ms == [attrs[0]] + rest;
        if forall i | 0 <= i < |ms| :: parse(ms[i]).Ok? {
          assert parse(ms[0]).Ok?;
          forall i | 0 <= i < |rest| ensures parse(rest[i]).Ok? {
            assert ms[i + 1] == rest[i];
          }
        }
        if TakeItemAttrs(attrs, parse).Ok? {
          forall i | 0 <= i < |ms| ensures parse(ms[i]).Ok? {
            if i > 0 {
              assert ms[i] == rest[i - 1];
            }
          }
        }
      } else {
        assert ms == rest;
      }
    }
  }

  /** A successful extraction yields each marker's parse, in order. */
  lemma {:induction false} TakeItemAttrsParses<G>(attrs: seq<Attribute>, parse: Attribute -> Result<G>)
    requires TakeItemAttrs(attrs, parse).Ok?
    ensures forall i | 0 <= i < |Markers(attrs)| ::
              parse(Markers(attrs)[i]) == Ok(TakeItemAttrs(attrs, parse).value.1[i])
  {
    if attrs != [] {
      var tail := attrs[1..];
      TakeItemAttrsParses(tail, parse);
      var ms, rest := Markers(attrs), Markers(tail);
      var parsed, restParsed := TakeItemAttrs(attrs, parse).value.1, TakeItemAttrs(tail, parse).value.1;
      if IsMarker(attrs[0]) {
        assert ms == [attrs[0]] + rest;
        assert parsed == [parse(attrs[0]).value] + restParsed;
        forall i | 0 <= i < |ms| ensures parse(ms[i]) == Ok(parsed[i]) {
          if i > 0 {
            assert ms[i] == rest[i - 1] && parsed[i] == restParsed[i - 1];
          }
        }
      } else {
        assert ms == rest && parsed == restParsed;
      }
    }
  }

  /** A failed extraction reports the error of the first marker that does not parse. */
  lemma {:induction false} TakeItemAttrsRejects<G>(attrs: seq<Attribute>, parse: Attribute -> Result<G>)
    requires TakeItemAttrs(attrs, parse).Err?
    ensures exists k | 0 <= k < |Markers(attrs)| ::
              parse(Markers(attrs)[k]) == Err(TakeItemAttrs(attrs, parse).error)
              && forall j | 0 <= j < k :: parse(Markers(attrs)[j]).Ok?
  {
    var tail := attrs[1..];
    var ms := Markers(attrs);
    if IsMarker(attrs[0]) {
      assert ms == [attrs[0]] + Markers(tail);
      if parse(attrs[0]).Err? {
        assert ms[0] == attrs[0];
      } else {
        TakeItemAttrsRejects(tail, parse);
        var k :| 0 <= k < |Markers(tail)| && parse(Markers(tail)[k]) == Err(TakeItemAttrs(tail, parse).error)
                 && forall j | 0 <= j < k :: parse(Markers(tail)[j]).Ok?;
        assert ms[k + 1] == Markers(tail)[k];
        forall j | 0 <= j < k + 1 ensures parse(ms[j]).Ok? {
          if j > 0 {
            assert ms[j] == Markers(tail)[j - 1];
          }
        }
      }
    } else {
      assert ms == Markers(tail);
      TakeItemAttrsRejects(tail, parse);
    }
  }

  /** A list without markers is left as it is. */
  lemma {:induction false} TakeItemAttrsNoMarkers<G>(attrs: seq<Attribute>, parse: Attribute -> Result<G>)
    requires forall i | 0 <= i < |attrs| :: !IsMarker(attrs[i])
    ensures TakeItemAttrs(attrs, parse) == Ok((attrs, []))
  {
    if attrs != [] {
      assert !IsMarker(attrs[0]);
      TakeItemAttrsNoMarkers(attrs[1..], parse);
      assert [attrs[0]] + attrs[1..] == attrs;
    }
  }

  /** Once stripped, a list has nothing left to strip: a second extraction finds no
      marker and leaves the list as it is. */
  lemma {:induction false} TakeItemAttrsIdempotent<G>(attrs: seq<Attribute>, parse: Attribute -> Result<G>)
    requires TakeItemAttrs(attrs, parse).Ok?
    ensures TakeItemAttrs(TakeItemAttrs(attrs, parse).value.0, parse) == Ok((Unmarked(attrs), []))
  {
    UnmarkedAreNotMarkers(attrs);
    TakeItemAttrsNoMarkers(Unmarked(attrs), parse);
  }

  /** The literal of a `#[doc = "..."]` attribute, if `a` is one. */
  function DocLiteral(a: Attribute): Option<Lit> {
    if !a.global && a.path == ["doc"] && a.args.NameValue? && a.args.value.LitExpr?
    then Some(a.args.value.lit)
    else None
  }

  /** `get_doc_literals`: the doc literals of `attrs`, in order; other attributes are skipped. */
  function DocLiterals(attrs: seq<Attribute>): (docs: seq<Lit>)
    ensures |docs| <= |attrs|
    ensures (forall i | 0 <= i < |attrs| :: DocLiteral(attrs[i]).None?) ==> docs == []
  {
    if attrs == [] then []
    else
      (match DocLiteral(attrs[0]) case Some(l) => [l] case None => []) + DocLiterals(attrs[1..])
  }

  /** Reading the docs of two lists written one after the other gives the first list's
      docs followed by the second's: the literals keep the order they were written in. */
  lemma {:induction false} DocLiteralsAppend(a: seq<Attribute>, b: seq<Attribute>)
    ensures DocLiterals(a + b) == DocLiterals(a) + DocLiterals(b)
    decreases |a|
  {
    if a != [] {
      assert (a + b)[1..] == a[1..] + b;
      DocLiteralsAppend(a[1..], b);
    } else {
      assert a + b == b;
    }
  }

  /** A single attribute contributes its literal when it is a doc attribute and
      nothing otherwise. */
  lemma DocLiteralsOne(a: Attribute)
    ensures DocLiterals([a]) == (match DocLiteral(a) case Some(l) => [l] case None => [])
  {
    assert [a][1..] == [];
  }

  /** The literal of the doc attribute at position `i` is in the result, right after the
      literals of the attributes before it. */
  lemma DocLiteralsAt(attrs: seq<Attribute>, i: nat)
    requires i < |attrs| && DocLiteral(attrs[i]).Some?
    ensures |DocLiterals(attrs[..i])| < |DocLiterals(attrs)|
    ensures DocLiterals(attrs)[|DocLiterals(attrs[..i])|] == DocLiteral(attrs[i]).value
  {
    assert attrs == attrs[..i] + ([attrs[i]] + attrs[i + 1..]);
    DocLiteralsAppend(attrs[..i], [attrs[i]] + attrs[i + 1..]);
    DocLiteralsAppend([attrs[i]], attrs[i + 1..]);
    DocLiteralsOne(attrs[i]);
  }

  /** Markers are never doc comments, so stripping them leaves the docs unchanged: the
      docs a validator reads after stripping are all the docs the author wrote. */
  lemma {:induction false} DocsSurviveStripping(attrs: seq<Attribute>)
    ensures DocLiterals(Unmarked(attrs)) == DocLiterals(attrs)
  {
    if attrs != [] {
      var head, tail := attrs[0], attrs[1..];
      DocsSurviveStripping(tail);
      if IsMarker(head) {
        assert Unmarked(attrs) == Unmarked(tail);
        assert DocLiteral(head).None?;
      } else {
        var kept := [head] + Unmarked(tail);
        assert Unmarked(attrs) == kept;
        assert kept[0] == head && kept[1..] == Unmarked(tail);
      }
    }
  }
}

=== FILE: call.dfy ===
/** The call declaration validator: `CallDef::try_from` over
    `impl<..> Call for Module<..> { fn ... }`, with the marker grammars
    `#[pallet::weight = expr]` and `#[pallet::compact]`. */
module CallParse {
  import opened Results
  import opened Syntax
  import opened Collect
  import opened Attrs

  /** One dispatchable `#[pallet::weight = expr] fn name(origin, arg: Ty, ...)`.
      `args` holds `(is_compact, name, type)` of every parameter after the origin. */
  datatype CallVariantDef = CallVariantDef(name: Ident, args: seq<(bool, Ident, Type)>,
                                           weight: Expr, docs: seq<Lit>)

  /** A validated call declaration: the instance usages of the impl generics and of
      the self type, the impl block with its markers stripped, one variant per method. */
  datatype CallDef = CallDef(instances: seq<InstanceUsage>, item: ItemImpl,
                             methods: seq<CallVariantDef>, call: Keyword)

  datatype FunctionAttr = FunctionAttr(weight: Expr)

  datatype ArgAttrIsCompact = ArgAttrIsCompact

  /** `FunctionAttr::parse`: `# [ pallet :: weight = <expr> ]`, consumed to the end. */
  function ParseFunctionAttr(a: Attribute): (r: Result<FunctionAttr>)
    ensures r.Ok? <==> a.style.Outer? && !a.global && a.path == ["pallet", "weight"] && a.args.NameValue?
    ensures r.Ok? ==> r.value.weight == a.args.value
  {
    if a.style.Inner? then Err(Expected("square brackets"))
    else if a.global || |a.path| == 0 || a.path[0] != "pallet" then Err(Expected("pallet"))
    else if |a.path| == 1 then Err(Expected("::"))
    else if a.path[1] != "weight" then Err(Expected("weight"))
    else if |a.path| > 2 || !a.args.NameValue? then Err(Expected("="))
    else Ok(FunctionAttr(a.args.value))
  }

  /** `ArgAttrIsCompact::parse`: `# [ pallet :: compact ]`, with nothing after `compact`. */
  function ParseArgAttrIsCompact(a: Attribute): (r: Result<ArgAttrIsCompact>)
    ensures r.Ok? <==> a.style.Outer? && !a.global && a.path == ["pallet", "compact"] && a.args.NoArgs?
  {
    if a.style.Inner? then Err(Expected("square brackets"))
    else if a.global || |a.path| == 0 || a.path[0] != "pallet" then Err(Expected("pallet"))
    else if |a.path| == 1 then Err(Expected("::"))
    else if a.path[1] != "compact" then Err(Expected("compact"))
    else if |a.path| > 2 || !a.args.NoArgs? then Err(UnexpectedToken)
    else Ok(ArgAttrIsCompact)
  }

  /** The return type must be written, and must be exactly `DispatchResultWithPostInfo`. */
  function ParseReturnType(output: ReturnType): (r: Result<Keyword>)
    ensures r.Ok? <==> output == ReturnTy(Type(["DispatchResultWithPostInfo"]))
    ensures output.DefaultReturn? ==> r == Err(RequireReturnType)
  {
    match output
    case DefaultReturn => Err(RequireReturnType)
    case ReturnTy(ty) => ParseKeyword(ty.tokens, "DispatchResultWithPostInfo")
  }

  /** One parameter after the origin: its markers are stripped, at most one is allowed
      (and it must be `#[pallet::compact]`), and its pattern must be an identifier. */
  function ParseArg(pt: PatType): (r: Result<(PatType, (bool, Ident, Type))>)
    ensures r.Ok? <==>
              TakeItemAttrs(pt.attrs, ParseArgAttrIsCompact).Ok? && |Markers(pt.attrs)| <= 1 && pt.pat.IdentPat?
    ensures r.Ok? ==> r.value.0 == pt.(attrs := Unmarked(pt.attrs))
    ensures r.Ok? ==> r.value.1 == (|Markers(pt.attrs)| == 1, pt.pat.ident, pt.ty)
    ensures TakeItemAttrs(pt.attrs, ParseArgAttrIsCompact).Err? ==>
              r == Err(TakeItemAttrs(pt.attrs, ParseArgAttrIsCompact).error)
    ensures TakeItemAttrs(pt.attrs, ParseArgAttrIsCompact).Ok? && |Markers(pt.attrs)| > 1 ==>
              r == Err(TooManyArgAttrs)
    ensures TakeItemAttrs(pt.attrs, ParseArgAttrIsCompact).Ok? && |Markers(pt.attrs)| <= 1 && !pt.pat.IdentPat? ==>
              r == Err(ArgMustBeIdent)
  {
    var taken :- TakeItemAttrs(pt.attrs, ParseArgAttrIsCompact);
    var stripped := pt.(attrs := taken.0);
    if |taken.1| > 1 then Err(TooManyArgAttrs)
    else
      match stripped.pat
      case IdentPat(ident) => Ok((stripped, (|taken.1| != 0, ident, stripped.ty)))
      case OtherPat(_) => Err(ArgMustBeIdent)
  }

  /** The parameters after the origin, which the grammar guarantees are typed. */
  function LaterArgs(inputs: FnInputs): (later: seq<PatType>)
    requires |inputs| > 0
    ensures |later| == |inputs| - 1
    ensures forall i | 0 <= i < |later| :: inputs[i + 1] == Typed(later[i])
  {
    seq(|inputs| - 1, i requires 0 <= i < |inputs| - 1 => inputs[i + 1].pt)
  }

  /** The origin followed by the stripped later parameters. */
  function StrippedInputs(origin: FnArg, parsed: seq<(PatType, (bool, Ident, Type))>): (inputs: FnInputs)
    ensures |inputs| == |parsed| + 1 && inputs[0] == origin
    ensures forall i | 0 <= i < |parsed| :: inputs[i + 1] == Typed(parsed[i].0)
  {
    [origin] + seq(|parsed|, i requires 0 <= i < |parsed| => Typed(parsed[i].0))
  }

  function ArgInfos(parsed: seq<(PatType, (bool, Ident, Type))>): (args: seq<(bool, Ident, Type)>)
    ensures |args| == |parsed| && forall i | 0 <= i < |parsed| :: args[i] == parsed[i].1
  {
    seq(|parsed|, i requires 0 <= i < |parsed| => parsed[i].1)
  }

  /** An accepted parameter carries at most one marker, a well-formed `#[pallet::compact]`;
      its flag says whether it had one; the stripped parameter keeps no marker and loses
      no doc comment. */
  lemma ArgMarkers(pt: PatType)
    requires ParseArg(pt).Ok?
    ensures ParseArg(pt).value.1.0 <==> |Markers(pt.attrs)| == 1
    ensures forall i | 0 <= i < |Markers(pt.attrs)| ::
              ParseArgAttrIsCompact(Markers(pt.attrs)[i]).Ok?
    ensures Markers(ParseArg(pt).value.0.attrs) == []
    ensures DocLiterals(ParseArg(pt).value.0.attrs) == DocLiterals(pt.attrs)
  {
    TakeItemAttrsAccepts(pt.attrs, ParseArgAttrIsCompact);
    StrippedHasNoMarkers(pt.attrs);
    DocsSurviveStripping(pt.attrs);
  }

  /** Every parameter after the origin, in order: the parameter list with their markers
      stripped, and their `(is_compact, name, type)`. The first bad parameter decides
      (`ParseArgsMeaning`, `ParseArgsRejects`). */
  function ParseArgs(inputs: FnInputs): (r: Result<(FnInputs, seq<(bool, Ident, Type)>)>)
    requires |inputs| > 0
    ensures r.Ok? ==> |r.value.1| == |inputs| - 1 && |r.value.0| == |inputs| && r.value.0[0] == inputs[0]
  {
    var parsed :- TryMap(LaterArgs(inputs), ParseArg);
    Ok((StrippedInputs(inputs[0], parsed), ArgInfos(parsed)))
  }

  /** The parameter list is accepted exactly when each parameter after the origin is,
      and then each stripped parameter and its description come from that parameter. */
  lemma ParseArgsMeaning(inputs: FnInputs)
    requires |inputs| > 0
    ensures ParseArgs(inputs).Ok? ==>
              forall i | 0 <= i < |inputs| - 1 :: ParseArg(LaterArgs(inputs)[i]).Ok?
    ensures (forall i | 0 <= i < |inputs| - 1 :: ParseArg(LaterArgs(inputs)[i]).Ok?) ==>
              ParseArgs(inputs).Ok?
    ensures ParseArgs(inputs).Ok? ==>
              forall i | 0 <= i < |inputs| - 1 ::
                ParseArg(inputs[i + 1].pt) == Ok((ParseArgs(inputs).value.0[i + 1].pt, ParseArgs(inputs).value.1[i]))
  {
    TryMapAccepts(LaterArgs(inputs), ParseArg);
  }

  /** Parameters that are each accepted make the whole list accepted, and the result
      is fixed by the parameters' own results. */
  lemma ParseArgsAccepts(inputs: FnInputs, stripped: FnInputs, args: seq<(bool, Ident, Type)>)
    requires |inputs| > 0 && |stripped| == |inputs| && stripped[0] == inputs[0] && |args| == |inputs| - 1
    requires forall j | 0 <= j < |args| :: ParseArg(LaterArgs(inputs)[j]) == Ok((stripped[j + 1].pt, args[j]))
    ensures ParseArgs(inputs) == Ok((stripped, args))
  {
    var parsed := seq(|args|, j requires 0 <= j < |args| => (stripped[j + 1].pt, args[j]));
    TryMapAllOk(LaterArgs(inputs), ParseArg, parsed);
    assert StrippedInputs(inputs[0], parsed) == stripped;
    assert ArgInfos(parsed) == args;
  }

  /** The first parameter that is not accepted decides the error. */
  lemma ParseArgsRejects(inputs: FnInputs, k: nat)
    requires k + 1 < |inputs| && ParseArg(LaterArgs(inputs)[k]).Err?
    requires forall j | 0 <= j < k :: ParseArg(LaterArgs(inputs)[j]).Ok?
    ensures ParseArgs(inputs) == Err(ParseArg(LaterArgs(inputs)[k]).error)
  {
    TryMapStopsAt(LaterArgs(inputs), ParseArg, k);
  }

  /** The weight markers of a method: exactly one is required; it is stripped and its
      expression is the weight. */
  function ParseWeight(attrs: seq<Attribute>): (r: Result<(seq<Attribute>, Expr)>)
    ensures TakeItemAttrs(attrs, ParseFunctionAttr).Err? ==>
              r == Err(TakeItemAttrs(attrs, ParseFunctionAttr).error)
    ensures TakeItemAttrs(attrs, ParseFunctionAttr).Ok? && |Markers(attrs)| == 0 ==>
              r == Err(RequireWeightAttr)
    ensures TakeItemAttrs(attrs, ParseFunctionAttr).Ok? && |Markers(attrs)| > 1 ==>
              r == Err(TooManyWeightAttrs)
    ensures r.Ok? ==> |Markers(attrs)| == 1 && r.value.0 == Unmarked(attrs)
    ensures r.Ok? ==> ParseFunctionAttr(Markers(attrs)[0]) == Ok(FunctionAttr(r.value.1))
  {
    var taken :- TakeItemAttrs(attrs, ParseFunctionAttr);
    TakeItemAttrsParses(attrs, ParseFunctionAttr);
    if |taken.1| != 1 then Err(if |taken.1| == 0 then RequireWeightAttr else TooManyWeightAttrs)
    else Ok((taken.0, taken.1[0].weight))
  }

  /** The checks on a method's signature, all made before its weight is looked at:
      an origin parameter accepted by the first-argument check, then the return type. */
  function CheckSignature(checks: Checks, sig: Signature): (r: Result<()>)
    ensures |sig.inputs| == 0 ==> r == Err(MissingOriginArg)
    ensures |sig.inputs| > 0 && checks.dispatchableFirstArg(sig.inputs[0]).Err? ==>
              r == Err(checks.dispatchableFirstArg(sig.inputs[0]).error)
    ensures |sig.inputs| > 0 && checks.dispatchableFirstArg(sig.inputs[0]).Ok? ==>
              r == (if ParseReturnType(sig.output).Ok? then Ok(()) else Err(ParseReturnType(sig.output).error))
    ensures r.Ok? ==> |sig.inputs| > 0 && sig.output == ReturnTy(Type(["DispatchResultWithPostInfo"]))
  {
    if |sig.inputs| == 0 then Err(MissingOriginArg)
    else
      var origin :- checks.dispatchableFirstArg(sig.inputs[0]);
      var ret :- ParseReturnType(sig.output);
      Ok(())
  }

  /** One method of the impl block: the method with its markers stripped, and its variant. */
  function MethodVariant(checks: Checks, m: ImplItemMethod): (r: Result<(ImplItemMethod, CallVariantDef)>)
    ensures CheckSignature(checks, m.sig).Err? ==> r == Err(CheckSignature(checks, m.sig).error)
    ensures CheckSignature(checks, m.sig).Ok? && ParseWeight(m.attrs).Err? ==>
              r == Err(ParseWeight(m.attrs).error)
    ensures CheckSignature(checks, m.sig).Ok? && ParseWeight(m.attrs).Ok? ==>
              r.Ok? == ParseArgs(m.sig.inputs).Ok?
    ensures CheckSignature(checks, m.sig).Ok? && ParseWeight(m.attrs).Ok? && ParseArgs(m.sig.inputs).Err? ==>
              r == Err(ParseArgs(m.sig.inputs).error)
    ensures r.Ok? ==>
              CheckSignature(checks, m.sig).Ok? && ParseWeight(m.attrs) == Ok((r.value.0.attrs, r.value.1.weight))
              && ParseArgs(m.sig.inputs) == Ok((r.value.0.sig.inputs, r.value.1.args))
    ensures r.Ok? ==>
              r.value.1.name == m.sig.ident && r.value.1.docs == DocLiterals(r.value.0.attrs)
              && r.value.0.sig.ident == m.sig.ident && r.value.0.sig.output == m.sig.output && r.value.0.body == m.body
  {
    var sigOk :- CheckSignature(checks, m.sig);
    var weight :- ParseWeight(m.attrs);
    var args :- ParseArgs(m.sig.inputs);
    var stripped := m.(attrs := weight.0, sig := m.sig.(inputs := args.0));
    Ok((stripped, CallVariantDef(m.sig.ident, args.1, weight.1, DocLiterals(weight.0))))
  }

  /** An accepted method carried exactly one weight marker, whose expression is the
      variant's weight; the stripped method keeps no marker; the variant's docs are all
      the docs the author wrote on the method; and it describes every parameter after the
      origin by its name and type. */
  lemma MethodMarkers(checks: Checks, m: ImplItemMethod)
    requires MethodVariant(checks, m).Ok?
    ensures |Markers(m.attrs)| == 1
    ensures ParseFunctionAttr(Markers(m.attrs)[0]) == Ok(FunctionAttr(MethodVariant(checks, m).value.1.weight))
    ensures Markers(MethodVariant(checks, m).value.0.attrs) == []
    ensures MethodVariant(checks, m).value.1.docs == DocLiterals(m.attrs)
    ensures |MethodVariant(checks, m).value.1.args| == |m.sig.inputs| - 1
    ensures forall i | 0 <= i < |m.sig.inputs| - 1 ::
              m.sig.inputs[i + 1].pt.pat == IdentPat(MethodVariant(checks, m).value.1.args[i].1)
              && MethodVariant(checks, m).value.1.args[i].2 == m.sig.inputs[i + 1].pt.ty
  {
    StrippedHasNoMarkers(m.attrs);
    DocsSurviveStripping(m.attrs);
    ParseArgsMeaning(m.sig.inputs);
  }

  /** One member of the impl block: only methods are accepted. */
  function MemberVariant(checks: Checks, member: ImplItem): (r: Result<(ImplItem, CallVariantDef)>)
    ensures member.OtherImplItem? ==> r == Err(OnlyMethodAccepted)
    ensures member.Method? && MethodVariant(checks, member.fn).Err? ==>
              r == Err(MethodVariant(checks, member.fn).error)
    ensures member.Method? && MethodVariant(checks, member.fn).Ok? ==>
              r == Ok((Method(MethodVariant(checks, member.fn).value.0), MethodVariant(checks, member.fn).value.1))
  {
    match member
    case Method(m) =>
      var checked :- MethodVariant(checks, m);
      Ok((Method(checked.0), checked.1))
    case OtherImplItem(_) => Err(OnlyMethodAccepted)
  }

  function MemberFn(checks: Checks): ImplItem -> Result<(ImplItem, CallVariantDef)> {
    member => MemberVariant(checks, member)
  }

  /** Every member of the impl block, in order: the members with their markers stripped,
      and one variant per member. The first bad member decides (`ParseMembersMeaning`,
      `ParseMembersRejects`). */
  function ParseMembers(checks: Checks, items: seq<ImplItem>): (r: Result<(seq<ImplItem>, seq<CallVariantDef>)>)
    ensures r.Ok? ==> |r.value.0| == |items| && |r.value.1| == |items|
  {
    var checked :- TryMap(items, MemberFn(checks));
    Ok((seq(|checked|, i requires 0 <= i < |checked| => checked[i].0),
        seq(|checked|, i requires 0 <= i < |checked| => checked[i].1)))
  }

  /** The members are accepted exactly when each of them is a method accepted on its own,
      and then each stripped method and its variant come from that method, under its name. */
  lemma ParseMembersMeaning(checks: Checks, items: seq<ImplItem>)
    ensures ParseMembers(checks, items).Ok? ==>
              forall i | 0 <= i < |items| :: MemberVariant(checks, items[i]).Ok?
    ensures (forall i | 0 <= i < |items| :: MemberVariant(checks, items[i]).Ok?) ==>
              ParseMembers(checks, items).Ok?
    ensures ParseMembers(checks, items).Ok? ==>
              forall i | 0 <= i < |items| ::
                var (stripped, methods) := ParseMembers(checks, items).value;
                items[i].Method? && stripped[i].Method? && methods[i].name == items[i].fn.sig.ident
                && MethodVariant(checks, items[i].fn) == Ok((stripped[i].fn, methods[i]))
  {
    TryMapAccepts(items, MemberFn(checks));
  }

  /** Members that are each accepted make the block accepted, and the result is fixed by
      the members' own results. */
  lemma ParseMembersAccepts(checks: Checks, items: seq<ImplItem>, stripped: seq<ImplItem>, methods: seq<CallVariantDef>)
    requires |stripped| == |items| && |methods| == |items|
    requires forall j | 0 <= j < |items| :: MemberVariant(checks, items[j]) == Ok((stripped[j], methods[j]))
    ensures ParseMembers(checks, items) == Ok((stripped, methods))
  {
    var checked := seq(|items|, j requires 0 <= j < |items| => (stripped[j], methods[j]));
    TryMapAllOk(items, MemberFn(checks), checked);
    assert ParseMembers(checks, items).value.0 == stripped;
    assert ParseMembers(checks, items).value.1 == methods;
  }

  /** The first member that is not accepted decides the error. */
  lemma ParseMembersRejects(checks: Checks, items: seq<ImplItem>, k: nat)
    requires k < |items| && MemberVariant(checks, items[k]).Err?
    requires forall j | 0 <= j < k :: MemberVariant(checks, items[j]).Ok?
    ensures ParseMembers(checks, items) == Err(MemberVariant(checks, items[k]).error)
  {
    TryMapStopsAt(items, MemberFn(checks), k);
  }

  /** The impl block passes the instance-usage checks. */
  predicate InstancesOk(item: Item, checks: Checks) {
    item.Impl? && checks.implGenerics(item.imp.generics).Ok? && checks.moduleUsage(item.imp.selfTy).Ok?
  }

  /** The impl block passes the instance-usage checks and names the trait `Call`. */
  predicate HeaderOk(item: Item, checks: Checks) {
    InstancesOk(item, checks) && item.imp.traitRef.Some? && item.imp.traitRef.value.path == ["Call"]
  }

  /** The whole call declaration. */
  function CallDefOf(item: Item, checks: Checks): (r: Result<CallDef>)
    ensures !item.Impl? ==> r == Err(ExpectItemImpl)
    // instance usages: generics first, then the self type; failures pass through unchanged
    ensures item.Impl? && checks.implGenerics(item.imp.generics).Err? ==>
              r == Err(checks.implGenerics(item.imp.generics).error)
    ensures item.Impl? && checks.implGenerics(item.imp.generics).Ok? && checks.moduleUsage(item.imp.selfTy).Err? ==>
              r == Err(checks.moduleUsage(item.imp.selfTy).error)
    ensures r.Ok? ==>
              InstancesOk(item, checks)
              && r.value.instances == [checks.implGenerics(item.imp.generics).value, checks.moduleUsage(item.imp.selfTy).value]
    // the trait must be `Call`, and it is taken off the returned block
    ensures InstancesOk(item, checks) && item.imp.traitRef.None? ==> r == Err(ExpectCallTrait)
    ensures InstancesOk(item, checks) && item.imp.traitRef.Some? && item.imp.traitRef.value.path != ["Call"] ==>
              r == Err(ParseKeyword(item.imp.traitRef.value.path, "Call").error)
    ensures r.Ok? ==> HeaderOk(item, checks) && r.value.call == Keyword("Call")
    ensures r.Ok? ==>
              r.value.item == item.imp.(traitRef := None, items := r.value.item.items)
    // then every member, in source order
    ensures HeaderOk(item, checks) ==> r.Ok? == ParseMembers(checks, item.imp.items).Ok?
    ensures HeaderOk(item, checks) && r.Err? ==> r == Err(ParseMembers(checks, item.imp.items).error)
    ensures r.Ok? ==> ParseMembers(checks, item.imp.items) == Ok((r.value.item.items, r.value.methods))
  {
    match item
    case Impl(imp) =>
      var genericsUsage :- checks.implGenerics(imp.generics);
      var selfUsage :- checks.moduleUsage(imp.selfTy);
      if imp.traitRef.None? then Err(ExpectCallTrait)
      else
        var call :- ParseKeyword(imp.traitRef.value.path, "Call");
        var members :- ParseMembers(checks, imp.items);
        Ok(CallDef([genericsUsage, selfUsage], imp.(traitRef := None, items := members.0), members.1, call))
    case _ => Err(ExpectItemImpl)
  }

  /** An accepted call declaration has one variant per member, in order and under the
      member's name; every member is a method, and none keeps a marker in the returned block. */
  lemma CallVariantsFollowMethods(item: Item, checks: Checks)
    requires CallDefOf(item, checks).Ok?
    ensures |CallDefOf(item, checks).value.methods| == |item.imp.items|
    ensures forall i | 0 <= i < |item.imp.items| ::
              item.imp.items[i].Method?
              && CallDefOf(item, checks).value.methods[i].name == item.imp.items[i].fn.sig.ident
              && CallDefOf(item, checks).value.item.items[i].Method?
              && Markers(CallDefOf(item, checks).value.item.items[i].fn.attrs) == []
  {
    var items := item.imp.items;
    var def := CallDefOf(item, checks).value;
    ParseMembersMeaning(checks, items);
    forall i | 0 <= i < |items|
      ensures def.item.items[i].Method? && Markers(def.item.items[i].fn.attrs) == []
    {
      MethodMarkers(checks, items[i].fn);
    }
  }

  /** One parameter after the origin: its markers are taken off, then counted, then its
      pattern is checked. */
  method CheckArg(pt: PatType) returns (r: Result<(PatType, (bool, Ident, Type))>)
    ensures r == ParseArg(pt)
  {
    var arg := pt;
    var argAttrs := TakeItemAttrs(arg.attrs, ParseArgAttrIsCompact);
    if argAttrs.Err? {
      return Err(argAttrs.error);
    }
    arg := arg.(attrs := argAttrs.value.0);
    if |argAttrs.value.1| > 1 {
      return Err(TooManyArgAttrs);
    }
    if !arg.pat.IdentPat? {
      return Err(ArgMustBeIdent);
    }
    return Ok((arg, (|argAttrs.value.1| != 0, arg.pat.ident, arg.ty)));
  }

  /** The loop of `try_from` over a method's parameters after the origin: takes each
      one's compact marker off in place, and collects their `(is_compact, name, type)`. */
  method CheckArgs(inputs: FnInputs) returns (r: Result<(FnInputs, seq<(bool, Ident, Type)>)>)
    requires |inputs| > 0
    ensures r == ParseArgs(inputs)
  {
    ghost var later := LaterArgs(inputs);
    var stripped: FnInputs := inputs;
    var args: seq<(bool, Ident, Type)> := [];
    var k := 1;
    while k < |stripped|
      invariant 1 <= k <= |stripped| == |inputs|
      invariant stripped[0] == inputs[0]
      invariant forall j | k <= j < |stripped| :: stripped[j] == inputs[j]
      invariant |args| == k - 1
      invariant forall j | 0 <= j < k - 1 :: ParseArg(later[j]) == Ok((stripped[j + 1].pt, args[j]))
    {
      assert stripped[k].pt == later[k - 1];
      var arg := CheckArg(stripped[k].pt);
      if arg.Err? {
        ParseArgsRejects(inputs, k - 1);
        return Err(arg.error);
      }
      args := args + [arg.value.1];
      stripped := stripped[k := Typed(arg.value.0)];
      k := k + 1;
    }
    ParseArgsAccepts(inputs, stripped, args);
    return Ok((stripped, args));
  }

  /** The body of `try_from`'s loop for one method: checks its signature, takes its
      weight marker off its attributes, then its parameters' compact markers. */
  method CheckMethod(checks: Checks, m: ImplItemMethod) returns (r: Result<(ImplItemMethod, CallVariantDef)>)
    ensures r == MethodVariant(checks, m)
  {
    var current := m;
    if |current.sig.inputs| == 0 {
      return Err(MissingOriginArg);
    }
    var origin := checks.dispatchableFirstArg(current.sig.inputs[0]);
    if origin.Err? {
      return Err(origin.error);
    }
    var ret := ParseReturnType(current.sig.output);
    if ret.Err? {
      return Err(ret.error);
    }

    var weightAttrs := TakeItemAttrs(current.attrs, ParseFunctionAttr);
    if weightAttrs.Err? {
      return Err(weightAttrs.error);
    }
    current := current.(attrs := weightAttrs.value.0);
    if |weightAttrs.value.1| != 1 {
      return Err(if |weightAttrs.value.1| == 0 then RequireWeightAttr else TooManyWeightAttrs);
    }
    var weight := weightAttrs.value.1[0].weight;

    var inputs := CheckArgs(current.sig.inputs);
    if inputs.Err? {
      return Err(inputs.error);
    }
    current := current.(sig := current.sig.(inputs := inputs.value.0));
    var docs := DocLiterals(current.attrs);
    return Ok((current, CallVariantDef(m.sig.ident, inputs.value.1, weight, docs)));
  }

  /** `CallDef::try_from`: the impl block is taken apart, its trait reference taken off,
      and its members checked in order, each method being replaced in place by its
      stripped form while its variant is pushed onto `methods`. */
  method TryFrom(item: Item, checks: Checks) returns (r: Result<CallDef>)
    ensures r == CallDefOf(item, checks)
  {
    if !item.Impl? {
      return Err(ExpectItemImpl);
    }
    var imp := item.imp;

    var instances := [];
    var genericsUsage := checks.implGenerics(imp.generics);
    if genericsUsage.Err? {
      return Err(genericsUsage.error);
    }
    instances := instances + [genericsUsage.value];
    var selfUsage := checks.moduleUsage(imp.selfTy);
    if selfUsage.Err? {
      return Err(selfUsage.error);
    }
    instances := instances + [selfUsage.value];

    var traitRef := imp.traitRef;
    imp := imp.(traitRef := None);
    if traitRef.None? {
      return Err(ExpectCallTrait);
    }
    var call := ParseKeyword(traitRef.value.path, "Call");
    if call.Err? {
      return Err(call.error);
    }

    ghost var members := item.imp.items;
    var methods: seq<CallVariantDef> := [];
    var i := 0;
    while i < |imp.items|
      invariant 0 <= i <= |imp.items| == |members|
      invariant imp == item.imp.(traitRef := None, items := imp.items)
      invariant forall j | i <= j < |members| :: imp.items[j] == members[j]
      invariant |methods| == i
      invariant forall j | 0 <= j < i :: MemberVariant(checks, members[j]) == Ok((imp.items[j], methods[j]))
    {
      match imp.items[i]
      case OtherImplItem(_) =>
        ParseMembersRejects(checks, members, i);
        return Err(OnlyMethodAccepted);
      case Method(m) =>
        var variant := CheckMethod(checks, m);
        if variant.Err? {
          ParseMembersRejects(checks, members, i);
          return Err(variant.error);
        }
        imp := imp.(items := imp.items[i := Method(variant.value.0)]);
        methods := methods + [variant.value.1];
      i := i + 1;
    }
    ParseMembersAccepts(checks, members, imp.items, methods);
    assert instances == [genericsUsage.value, selfUsage.value];
    return Ok(CallDef(instances, imp, methods, call.value));
  }
}

=== FILE: collect.dfy ===
/** Fail-fast mapping over a sequence: `iter().map(f).collect::<Result<Vec<_>, _>>()`,
    and the sequential loops that push into a vector and return at the first error. */
module Collect {
  import opened Results

  /** Applies `f` to every element in order; the first element on which `f` fails
      decides the error, and no partial sequence is ever returned. What this means
      element by element is stated by `TryMapAccepts` and `TryMapRejects`. */
  function TryMap<A, B>(s: seq<A>, f: A -> Result<B>): (r: Result<seq<B>>)
    ensures r.Ok? ==> |r.value| == |s|
    decreases |s|
  {
    if |s| == 0 then Ok([])
    else
      var init :- TryMap(s[..|s| - 1], f);
      var last :- f(s[|s| - 1]);
      Ok(init + [last])
  }

  /** Success means every element is accepted, and the result is their images in order. */
  lemma {:induction false} TryMapAccepts<A, B>(s: seq<A>, f: A -> Result<B>)
    ensures TryMap(s, f).Ok? <==> forall i | 0 <= i < |s| :: f(s[i]).Ok?
    ensures TryMap(s, f).Ok? ==> forall i | 0 <= i < |s| :: f(s[i]) == Ok(TryMap(s, f).value[i])
    decreases |s|
  {
    if |s| > 0 {
      var init := s[..|s| - 1];
      TryMapAccepts(init, f);
      forall i | 0 <= i < |init| ensures init[i] == s[i] {
      }
    }
  }

  /** Failure is the error of the first element that is not accepted. */
  lemma {:induction false} TryMapRejects<A, B>(s: seq<A>, f: A -> Result<B>)
    requires TryMap(s, f).Err?
    ensures exists k | 0 <= k < |s| ::
              f(s[k]) == Err(TryMap(s, f).error) && forall j | 0 <= j < k :: f(s[j]).Ok?
    decreases |s|
  {
    var init := s[..|s| - 1];
    if TryMap(init, f).Err? {
      TryMapRejects(init, f);
      var k :| 0 <= k < |init| && f(init[k]) == Err(TryMap(init, f).error)
               && forall j | 0 <= j < k :: f(init[j]).Ok?;
      assert init[k] == s[k];
      forall j | 0 <= j < k ensures f(s[j]).Ok? {
        assert init[j] == s[j];
      }
    } else {
      TryMapAccepts(init, f);
      var k := |s| - 1;
      forall j | 0 <= j < k ensures f(s[j]).Ok? {
        assert init[j] == s[j];
      }
    }
  }

  /** The first failing element decides the outcome. */
  lemma TryMapStopsAt<A, B>(s: seq<A>, f: A -> Result<B>, k: nat)
    requires k < |s| && f(s[k]).Err?
    requires forall j | 0 <= j < k :: f(s[j]).Ok?
    ensures TryMap(s, f) == Err(f(s[k]).error)
  {
    TryMapAccepts(s, f);
    TryMapRejects(s, f);
    var k' :| 0 <= k' < |s| && f(s[k']) == Err(TryMap(s, f).error)
              && forall j | 0 <= j < k' :: f(s[j]).Ok?;
    assert k' == k;
  }

  /** A sequence every element of which `f` accepts maps to exactly their images. */
  lemma TryMapAllOk<A, B>(s: seq<A>, f: A -> Result<B>, images: seq<B>)
    requires |images| == |s| && forall i | 0 <= i < |s| :: f(s[i]) == Ok(images[i])
    ensures TryMap(s, f) == Ok(images)
  {
    TryMapAccepts(s, f);
    var r := TryMap(s, f);
    assert r.value == images;
  }
}

=== FILE: error.dfy ===
/** The error declaration validator: `ErrorDef::try_from` over
    `pub enum Error<T, I = ()> { #[doc = ".."] Variant, ... }`. It only reads the
    declaration, so it is modelled as a function. */
module ErrorParse {
  import opened Results
  import opened Syntax
  import opened Collect
  import opened Attrs

  /** A validated error declaration: the position of the item in the pallet module,
      each variant's name with its doc literals (in declaration order), the instance
      usage of the enum's generics, and the `Error` keyword. */
  datatype ErrorDef = ErrorDef(index: nat, variants: seq<(Ident, seq<Lit>)>,
                               instances: seq<InstanceUsage>, error: Keyword)

  /** One variant: it must be a unit variant, then it must have no discriminant. */
  function ParseVariant(v: Variant): (r: Result<(Ident, seq<Lit>)>)
    ensures r.Ok? <==> v.fields.Unit? && v.discriminant.None?
    ensures !v.fields.Unit? ==> r == Err(UnexpectedFields)
    ensures v.fields.Unit? && v.discriminant.Some? ==> r == Err(UnexpectedDiscriminant)
    ensures r.Ok? ==> r.value.0 == v.ident && r.value.1 == DocLiterals(v.attrs)
  {
    if !v.fields.Unit? then Err(UnexpectedFields)
    else if v.discriminant.Some? then Err(UnexpectedDiscriminant)
    else Ok((v.ident, DocLiterals(v.attrs)))
  }

  /** The enum passes every check made before its variants are looked at. */
  predicate HeaderOk(item: Item, checks: Checks) {
    item.Enum? && item.enm.vis.Public? && checks.typeDefGenerics(item.enm.generics).Ok?
    && item.enm.generics.whereClause.None? && item.enm.ident == "Error"
  }

  /** `ErrorDef::try_from`. The checks run in a fixed order and the first one that
      fails decides the diagnostic. */
  function TryFrom(index: nat, item: Item, checks: Checks): (r: Result<ErrorDef>)
    ensures !item.Enum? ==> r == Err(ExpectItemEnum)
    ensures item.Enum? && !item.enm.vis.Public? ==> r == Err(ErrorMustBePublic)
    ensures item.Enum? && item.enm.vis.Public? && checks.typeDefGenerics(item.enm.generics).Err? ==>
              r == Err(checks.typeDefGenerics(item.enm.generics).error)
    ensures item.Enum? && item.enm.vis.Public? && checks.typeDefGenerics(item.enm.generics).Ok?
            && item.enm.generics.whereClause.Some? ==>
              r == Err(UnexpectedWhereClause)
    ensures item.Enum? && item.enm.vis.Public? && checks.typeDefGenerics(item.enm.generics).Ok?
            && item.enm.generics.whereClause.None? && item.enm.ident != "Error" ==>
              r == Err(Expected("Error"))
    ensures r.Ok? ==> HeaderOk(item, checks)
    ensures r.Ok? ==>
              r.value.index == index && r.value.error == Keyword("Error")
              && r.value.instances == [checks.typeDefGenerics(item.enm.generics).value]
              && |r.value.variants| == |item.enm.variants|
  {
    match item
    case Enum(enm) =>
      if !enm.vis.Public? then Err(ErrorMustBePublic)
      else
        var usage :- checks.typeDefGenerics(enm.generics);
        if enm.generics.whereClause.Some? then Err(UnexpectedWhereClause)
        else
          var error :- ParseKeyword([enm.ident], "Error");
          var variants :- TryMap(enm.variants, ParseVariant);
          Ok(ErrorDef(index, variants, [usage], error))
    case _ => Err(ExpectItemEnum)
  }

  /** Once the header is accepted, the declaration is accepted exactly when every variant
      is a unit variant without discriminant, and then it lists every variant's name and
      docs in declaration order. */
  lemma VariantsDecide(index: nat, item: Item, checks: Checks)
    requires HeaderOk(item, checks)
    ensures TryFrom(index, item, checks).Ok? ==>
              forall i | 0 <= i < |item.enm.variants| ::
                item.enm.variants[i].fields.Unit? && item.enm.variants[i].discriminant.None?
    ensures (forall i | 0 <= i < |item.enm.variants| ::
               item.enm.variants[i].fields.Unit? && item.enm.variants[i].discriminant.None?) ==>
              TryFrom(index, item, checks).Ok?
    ensures TryFrom(index, item, checks).Ok? ==>
              forall i | 0 <= i < |item.enm.variants| ::
                TryFrom(index, item, checks).value.variants[i]
                == (item.enm.variants[i].ident, DocLiterals(item.enm.variants[i].attrs))
  {
    TryMapAccepts(item.enm.variants, ParseVariant);
  }

  /** Once the header is accepted, the first bad variant decides the diagnostic. */
  lemma FirstBadVariantDecides(index: nat, item: Item, checks: Checks, k: nat)
    requires HeaderOk(item, checks)
    requires k < |item.enm.variants| && ParseVariant(item.enm.variants[k]).Err?
    requires forall j | 0 <= j < k :: ParseVariant(item.enm.variants[j]).Ok?
    ensures TryFrom(index, item, checks) == Err(ParseVariant(item.enm.variants[k]).error)
  {
    TryMapStopsAt(item.enm.variants, ParseVariant, k);
  }
}

=== FILE: results.dfy ===
/** Failure-compatible wrappers and the diagnostics the two validators report. */
module Results {

  datatype Option<+T> = None | Some(value: T)

  /** Why a declaration was rejected. Source spans are not modelled: a diagnostic
      is identified by its kind alone. */
  datatype Diagnostic =
    // call declaration
    | ExpectItemImpl          // "expect item impl"
    | ExpectCallTrait         // "expect Call ident as in `impl<..> Call for Module<..> { .. }`"
    | OnlyMethodAccepted      // "only method accepted"
    | MissingOriginArg        // "must have at least origin arg"
    | RequireReturnType       // "require return type DispatchResultWithPostInfo"
    | RequireWeightAttr       // "require weight attribute"
    | TooManyWeightAttrs      // "to many weight attribute given"
    | TooManyArgAttrs         // "argument has too many attributes"
    | ArgMustBeIdent          // "argumen must be ident"
    // error declaration
    | ExpectItemEnum          // "expect item enum"
    | ErrorMustBePublic       // "`Error` must be public"
    | UnexpectedWhereClause   // "unexpected where clause"
    | UnexpectedFields        // "unexpected fields, must be `Unit`"
    | UnexpectedDiscriminant  // "unexpected discriminant, discriminant are not supported"
    // token-level parse failures
    | Expected(token: string) // the parser wanted `token` and found something else
    | UnexpectedToken         // the parser found tokens left over after a complete parse
    // a diagnostic raised by a check that is not part of this model
    | External(message: string)

  /** The outcome of a validation step; `:-` plays the role of Rust's `?`. */
  datatype Result<+T> = Ok(value: T) | Err(error: Diagnostic) {
    predicate IsFailure() { Err? }

    function PropagateFailure<U>(): Result<U>
      requires Err?
    {
      Err(error)
    }

    function Extract(): T
      requires Ok?
    {
      value
    }
  }
}

=== FILE: syntax.dfy ===
/** The slice of Rust syntax the two validators inspect. Everything they only pass
    through (expressions, types, literals, generic parameters, where clauses) is kept
    as an uninterpreted list of token texts. */
module Syntax {
  import opened Results

  type Ident = string

  /** A literal token, e.g. the string of a `#[doc = "..."]` attribute. */
  datatype Lit = Lit(token: string)

  /** An expression: a lone literal, or anything else (never inspected). */
  datatype Expr = LitExpr(lit: Lit) | OtherExpr(tokens: seq<string>)

  /** A type, as the token texts it prints to. */
  datatype Type = Type(tokens: seq<string>)

  /** `#[...]` or `#![...]`. */
  datatype AttrStyle = Outer | Inner

  /** What follows an attribute's path: nothing, `= expr`, or any other token tree. */
  datatype AttrArgs = NoArgs | NameValue(value: Expr) | OtherArgs(tokens: seq<string>)

  /** An attribute `#[global? seg0::seg1::... args]`. */
  datatype Attribute = Attribute(style: AttrStyle, global: bool, path: seq<Ident>, args: AttrArgs)

  datatype Generics = Generics(params: seq<string>, whereClause: Option<seq<string>>)

  /** A binding pattern: a plain identifier (possibly `mut`/`ref`) or any destructuring. */
  datatype Pat = IdentPat(ident: Ident) | OtherPat(tokens: seq<string>)

  /** A typed function parameter `#[attrs] pat: ty`. */
  datatype PatType = PatType(attrs: seq<Attribute>, pat: Pat, ty: Type)

  datatype FnArg = Receiver(attrs: seq<Attribute>) | Typed(pt: PatType)

  /** Parameter lists as Rust's grammar allows them: a receiver (`self`, `&self`, ...)
      can only be the first parameter. */
  type FnInputs = s: seq<FnArg> | forall i | 1 <= i < |s| :: s[i].Typed?

  datatype ReturnType = DefaultReturn | ReturnTy(ty: Type)

  datatype Signature = Signature(ident: Ident, inputs: FnInputs, output: ReturnType)

  /** A method of an impl block; its body is carried through unread. */
  datatype ImplItemMethod = ImplItemMethod(attrs: seq<Attribute>, sig: Signature, body: seq<string>)

  /** A member of an impl block: a method, or a constant, type alias, macro call, ... */
  datatype ImplItem = Method(fn: ImplItemMethod) | OtherImplItem(kind: string)

  /** `impl<..> !? Path for SelfTy { items }`; `negative` is the optional `!` and `path`
      holds the token texts of the trait path, so `Call<T>` is `["Call", "<", "T", ">"]`. */
  datatype TraitRef = TraitRef(negative: bool, path: seq<string>)

  datatype ItemImpl = ItemImpl(attrs: seq<Attribute>, generics: Generics,
                               traitRef: Option<TraitRef>, selfTy: Type, items: seq<ImplItem>)

  datatype Visibility = Public | Crate | Restricted(path: seq<string>) | Inherited

  datatype Field = Field(ident: Option<Ident>, ty: Type)

  datatype Fields = Named(named: seq<Field>) | Unnamed(unnamed: seq<Field>) | Unit

  datatype Variant = Variant(attrs: seq<Attribute>, ident: Ident, fields: Fields,
                             discriminant: Option<Expr>)

  datatype ItemEnum = ItemEnum(attrs: seq<Attribute>, vis: Visibility, ident: Ident,
                               generics: Generics, variants: seq<Variant>)

  /** A module-level item handed to a validator. */
  datatype Item = Impl(imp: ItemImpl) | Enum(enm: ItemEnum) | OtherItem(kind: string)

  /** Whether a generic parameter list or a self type uses the instance parameter. */
  datatype InstanceUsage = InstanceUsage(hasInstance: bool)

  /** A custom keyword token that was parsed successfully. */
  datatype Keyword = Keyword(text: string)

  /** `syn::parse2::<keyword::K>(tokens)`: the token stream must be exactly the
      identifier `kw`. */
  function ParseKeyword(tokens: seq<string>, kw: string): (r: Result<Keyword>)
    ensures r.Ok? <==> tokens == [kw]
    ensures r.Ok? ==> r.value.text == kw
    ensures |tokens| == 0 || tokens[0] != kw ==> r == Err(Expected(kw))
  {
    if |tokens| == 0 || tokens[0] != kw then Err(Expected(kw))
    else if |tokens| > 1 then Err(UnexpectedToken)
    else Ok(Keyword(kw))
  }

  /** The checks shared with the rest of the macro, whose code is not part of this
      model. The three instance-usage checks each return an instance usage or fail; the
      origin-parameter check either accepts the parameter or fails. A failure's
      diagnostic is forwarded unchanged by the validators. */
  datatype Checks = Checks(
    implGenerics: Generics -> Result<InstanceUsage>,      // check_impl_generics
    moduleUsage: Type -> Result<InstanceUsage>,           // check_module_usage
    dispatchableFirstArg: FnArg -> Result<()>,            // check_dispatchable_first_arg
    typeDefGenerics: Generics -> Result<InstanceUsage>)   // helper::check_type_def_generics
}
